=== FILE: README.md ===
# Leap Motion connection layer — a Dafny model

This project models the event-servicing layer of the Leap Motion sample
`LeapSDK/samples/ExampleConnection.c`. The layer owns one LeapC connection and a
background thread that polls the Ultraleap tracking service. It classifies each
event it receives. It keeps "latest value" caches of the last tracking frame and
of the last device found, and it calls the consumer's optional callbacks
(`struct Callbacks`, ten slots).

The model is sequential and functional:

- All shared state is touched only inside the one mutex's critical sections. So
  every locked section and every event handler is one pure step function over an
  immutable `ServiceState.State` record. That record holds the running flag,
  `IsConnected`, the connection handle, both caches, the registered callback
  slots, the callbacks fired so far and the LeapC calls made so far.
- Every LeapC result, the "transform available" flag, the reported serial length
  and the serial bytes arrive as parameters.
- Every LeapC call the layer makes is appended to `State.calls`. This includes
  the transform query, run over the state by `DeviceTransform.QueryTransform` on
  the cached `lastDeviceHandle`. Properties such as "one retry", "a 1-byte
  probe" or "the transform is not requested" are stated on that log.
- Memory from `malloc` has indeterminate contents. Those contents are a
  parameter (`alloc`).
- Floats are kept as 32-bit patterns because the layer only copies them.

Modules: `LeapTypes` (values crossing the LeapC boundary), `ResultNames`
(`ResultString`), `FrameCache` (`deepCopyTrackingEvent`, `setFrame`,
`GetFrame`), `DeviceCache` (`setDevice`, `GetDeviceProperties`, the two-phase
device-info fetch), `DeviceTransform` (`GetDeviceTransform`), `ServiceState`
(the state record), `Lifecycle` (open/close/destroy), `Dispatch` (handlers, the
`switch`, one poll iteration, the loop) and `Scenarios` (end-to-end runs).

Two facts about the code are explicit in the model:

- **Hand buffers.** Both frame buffers have room for exactly 2 hands
  (`FrameCache.HandCapacity`), but the copy writes `nHands` hands. The source
  does not check this. The model requires `nHands <= 2` of every frame it
  copies.
- **Probe failures.** When the first `LeapGetDeviceInfo` call fails with
  anything other than `InsufficientBuffer`, the code still calls `setDevice`
  and `on_device_found` (`Dispatch.ProbeFailureStillCached`). The model
  reproduces this.

The model follows the code as written:

- A probe failure is not treated as an abort.
- The frame buffers do not grow beyond 2 hands.
- `GetDeviceProperties` returns the cached descriptor itself, not a copy.
- `DestroyConnection` does not clear the handle. A later `OpenConnection` opens
  the destroyed handle again and creates no new one
  (`Lifecycle.OpenAfterDestroyReusesHandle`).

## Model

| member | source | states |
|---|---|---|
| `ResultNames.ResultString` | LeapSDK/samples/ExampleConnection.c:400-424 | Total. A value that is no listed `eLeapRS` enumerator, and only such a value, gets "unknown result type."; every listed enumerator gets a name starting with `eLeapRS_` |
| `ResultNames.ParseResultNameRoundTrip` | LeapSDK/samples/ExampleConnection.c:402-421 | Reading a listed enumerator's name back yields that enumerator, so each listed code has its own name |
| `ResultNames.NamesInjective` | LeapSDK/samples/ExampleConnection.c:401-423 | Two codes with the same name are the same listed code, or both unlisted |
| `FrameCache.DeepCopy` | LeapSDK/samples/ExampleConnection.c:284-291 | Requires `nHands` to fit the destination. The result agrees with the source in header, frame id, `nHands`, frame rate and the first `nHands` hands; it keeps the destination's capacity and its slots past `nHands` |
| `FrameCache.DeepCopyFixpoint` | LeapSDK/samples/ExampleConnection.c:284-291 | A copy leaves the destination unchanged exactly when it already agrees with the source |
| `FrameCache.DeepCopyIdempotent` | LeapSDK/samples/ExampleConnection.c:284-291 | Copying the same source twice equals copying it once |
| `FrameCache.SetFrame` | LeapSDK/samples/ExampleConnection.c:297-311 | Requires the frame's hands to fit the 2-hand buffer. Afterwards a frame is cached. A non-null frame is cached with equal contents. A null frame leaves an existing cache unchanged, and on first use leaves the freshly allocated buffer. `GetFrame`'s buffer is untouched |
| `FrameCache.GetFrame` | LeapSDK/samples/ExampleConnection.c:314-333 | Returns null exactly when nothing was ever cached. Otherwise it returns a 2-hand buffer agreeing with the cached frame; the cache itself is untouched |
| `FrameCache.SetThenGet` | LeapSDK/samples/ExampleConnection.c:297-333 | After `setFrame(f)`, `GetFrame` returns a frame equal to `f` in header, id, `nHands`, frame rate and the first `nHands` hands |
| `FrameCache.LastWriteWins` | LeapSDK/samples/ExampleConnection.c:297-333 | After two `setFrame` calls, `GetFrame` reflects the second |
| `FrameCache.Run` | LeapSDK/samples/ExampleConnection.c:297-333 | Over any sequence of `setFrame`/`GetFrame` calls, the cache stays well formed. It is empty exactly when it started empty and no `setFrame` ran |
| `FrameCache.ReadNullUntilWritten` | LeapSDK/samples/ExampleConnection.c:314-327 | From the start, `GetFrame` returns null exactly until a first `setFrame`, including `setFrame(NULL)` |
| `DeviceCache.SetDevice` | LeapSDK/samples/ExampleConnection.c:339-351 | Replaces the last device handle. It caches every fixed field of the descriptor and a serial of exactly `serial_length` bytes, identical to the source's first `serial_length` bytes |
| `DeviceCache.GetDeviceProperties` | LeapSDK/samples/ExampleConnection.c:353-360 | Returns null exactly when no device was ever cached. Otherwise it returns a descriptor whose serial buffer holds exactly its declared `serial_length` bytes |
| `DeviceCache.SetThenGetDevice` | LeapSDK/samples/ExampleConnection.c:339-360 | `GetDeviceProperties` returns null before any `setDevice`; afterwards it returns the copy of the last descriptor set |
| `DeviceCache.SetDeviceOverwrites` | LeapSDK/samples/ExampleConnection.c:339-351 | A second `setDevice` leaves nothing of the first |
| `DeviceCache.FetchDeviceInfo` | LeapSDK/samples/ExampleConnection.c:139-156 | The first call uses a 1-byte serial buffer. On `InsufficientBuffer` exactly one retry follows, with a buffer of the reported length, and only a failed retry abandons the fetch. Any other first outcome is kept, failure included |
| `DeviceCache.TwoPhaseFetchesWholeSerial` | LeapSDK/samples/ExampleConnection.c:146-157 | A serial longer than the probe buffer, fetched on the retry, is cached whole and byte-identical |
| `DeviceTransform.GetDeviceTransform` | LeapSDK/samples/ExampleConnection.c:365-396 | A null buffer gives false with no LeapC call. An unavailable transform gives false after only the availability check, without requesting it, and leaves the buffer alone. A failed request gives false with its reason. True exactly when the buffer is non-null, the transform is available and the request succeeds. Once the request is made, the buffer holds whatever the transport wrote, on failure too |
| `DeviceTransform.QueryTransform` | LeapSDK/samples/ExampleConnection.c:365-396 | The query is made on the cached `lastDeviceHandle` and its LeapC calls are added to the layer's log; nothing else in the state changes |
| `DeviceTransform.TransformBeforeAnyDevice` | LeapSDK/samples/ExampleConnection.c:44-44 | Before any device event, the availability check is made on the null device handle |
| `DeviceTransform.TransformQueriesClosedDevice` | LeapSDK/samples/ExampleConnection.c:157-163 | After a device event caches a device, the transform is asked of that device's handle, which the event has already passed to `LeapCloseDevice` |
| `Lifecycle.OpenConnection` | LeapSDK/samples/ExampleConnection.c:62-80 | While running, nothing changes and the same handle is returned. A handle is created only if there is none. The layer starts running only when the open call was made and returned Success. Caches, callbacks and `IsConnected` are untouched |
| `Lifecycle.OpenIdempotent` | LeapSDK/samples/ExampleConnection.c:62-65 | Opening again after a successful open changes nothing |
| `Lifecycle.CloseConnection` | LeapSDK/samples/ExampleConnection.c:82-95 | A no-op when not running. Otherwise it stops running and closes the handle once. Afterwards the layer is never running, and caches are kept |
| `Lifecycle.CloseIdempotent` | LeapSDK/samples/ExampleConnection.c:82-86 | Closing twice equals closing once |
| `Lifecycle.DestroyConnection` | LeapSDK/samples/ExampleConnection.c:97-100 | Closes (if running), then destroys the handle. The handle is not cleared |
| `Lifecycle.OpenAfterDestroyReusesHandle` | LeapSDK/samples/ExampleConnection.c:62-100 | After `DestroyConnection`, `OpenConnection` makes no create call; it re-opens the destroyed handle |
| `Lifecycle.CloseConnectionHandle` | LeapSDK/samples/ExampleConnection.c:104-107 | Destroys the given handle and clears the running flag; nothing else changes |
| `Lifecycle.CloseHandleIsDestroyWithoutClose` | LeapSDK/samples/ExampleConnection.c:82-107 | On the connection's own handle, `CloseConnectionHandle` equals `DestroyConnection` exactly when the layer is not running; while running it lacks only the `LeapCloseConnection` call |
| `Dispatch.HandleDeviceEvent` | LeapSDK/samples/ExampleConnection.c:129-164 | A failed open only records the open call. After a successful open the log gains exactly the open call, the fetch's 1-byte probe and optional retry, and a `LeapCloseDevice` only when a descriptor is cached. A failed retry leaves the cache and callbacks untouched. Otherwise the fetched descriptor is cached under the opened handle, `on_device_found` gets it if set, and the device is closed |
| `Dispatch.CacheAndClose` | LeapSDK/samples/ExampleConnection.c:157-163 | Once a descriptor is in hand: it is cached under the device handle, `on_device_found` receives it if set, and exactly one `LeapCloseDevice` on that handle follows |
| `Dispatch.DeviceEventBracketed` | LeapSDK/samples/ExampleConnection.c:132-163 | A device event's LeapC calls start with `LeapOpenDevice`, and end with `LeapCloseDevice` on the opened handle whenever a descriptor was cached |
| `Dispatch.ProbeFailureStillCached` | LeapSDK/samples/ExampleConnection.c:146-160 | A first-fetch failure other than `InsufficientBuffer` still reaches `setDevice` and `on_device_found` |
| `Dispatch.RetryFailureLeavesCache` | LeapSDK/samples/ExampleConnection.c:147-155 | A failed retry leaves the device cache and callbacks untouched, after exactly the open call and two device-info calls (1 byte, then the reported length) |
| `Dispatch.Notification` | LeapSDK/samples/ExampleConnection.c:110-213 | The handler of each kind other than a device event calls only its own slot, with the event's data: the policy value, the failure status and handle, and the tracking, image, IMU or tracking-mode event; ignored kinds call none |
| `Dispatch.Update` | LeapSDK/samples/ExampleConnection.c:110-186 | A connection event sets `IsConnected`, a connection-lost event clears it, and a tracking event caches its frame and leaves `GetFrame`'s buffer alone; nothing else is touched |
| `Dispatch.DispatchMessage` | LeapSDK/samples/ExampleConnection.c:235-275 | Each handled kind fires at most its own slot, and only if that slot is set; every kind except a device event fires its notification, with the event's data, whenever its slot is set. A device event runs the device handler. ImageComplete, ImageRequestError and unknown kinds change nothing. Only tracking events touch the frame cache and only device events touch the device cache or make LeapC calls of their own (what a fired callback does is not modelled) |
| `Dispatch.ServiceStep` | LeapSDK/samples/ExampleConnection.c:226-275 | One poll with a 1000 ms timeout. A failed poll changes nothing except recording that poll; a successful one's message is dispatched, once |
| `Dispatch.ServiceMessageLoop` | LeapSDK/samples/ExampleConnection.c:226-276 | Runs no iteration unless running. Otherwise the result is the loop body applied once per tick (`Steps`), so every successful poll is dispatched. Lifecycle fields and callbacks never change. At most one callback fires per delivered message, and only registered slots fire |
| `Dispatch.StepFiresCallback` | LeapSDK/samples/ExampleConnection.c:226-275 | One iteration fires exactly the callback its message leads to: none for a failed poll, the notification for a set slot, `on_device_found` with the fetched descriptor that `setDevice` copied, for a device event |
| `Dispatch.StepsFireCallbacks` | LeapSDK/samples/ExampleConnection.c:226-276 | Over any run, the callbacks fired are exactly those the delivered messages lead to, in delivery order, at most one per delivered message |
| `Dispatch.StepsKeepHistory` | LeapSDK/samples/ExampleConnection.c:226-276 | A run only appends to the LeapC log (one poll at least per tick) and to the callback history, and only through registered slots |
| `Dispatch.StepsTrackConnection` | LeapSDK/samples/ExampleConnection.c:110-122 | After a run, `IsConnected` is what the last delivered connection or connection-lost event said, and unchanged if there was none |
| `Dispatch.StepsCacheLastFrame` | LeapSDK/samples/ExampleConnection.c:180-186 | After a run, `GetFrame` returns the frame of the last delivered tracking event; without one, the cached frame is unchanged |
| `Scenarios.NoFrameBeforeFirstWrite` | LeapSDK/samples/ExampleConnection.c:314-360 | Right after a successful open, `GetFrame` and `GetDeviceProperties` return null |
| `Scenarios.TrackingEventReachesGetFrame` | LeapSDK/samples/ExampleConnection.c:181-186 | A delivered 2-hand tracking event reaches `on_frame`. `GetFrame` then reports 2 hands with the same ids |
| `Scenarios.DeviceSerialFetchedInTwoPhases` | LeapSDK/samples/ExampleConnection.c:129-164 | A 7-byte serial ("ABC123" and terminator) is fetched by a 1-byte probe and one 7-byte retry. It is cached byte for byte under the opened handle, and the device is closed |

## Left out

- Threads and locking: the mutex, the `volatile` flag, thread creation and the join in `CloseConnection` are left out. Each locked section and handler is one atomic step; interleavings are not modelled.
- LeapC itself is not part of this model. Its results are parameters. One assumption is made about it: a device-info reply fills the buffer it was given and, unless it reports `InsufficientBuffer`, declares a serial length that fits that buffer (`DeviceCache.Answers`).
- `Dispatch.ServiceMessageLoop`: nothing in the modelled handlers clears `_isRunning`, so the loop runs over a given sequence of polls while the flag stays set; a `CloseConnectionHandle` or `CloseConnection` made from another thread or from a callback, which ends the loop, is not modelled. Its `delivered` count of successful polls exists only in the model.
- Callbacks: a fired callback is recorded with its arguments only; what it does is not modelled. This includes calls back into the layer (the sample's `OnFrame` in `LeapSDK/samples/DeviceTransformSample.c` calls `GetDeviceTransform`, whose LeapC calls then do not appear in the log after a tracking event) and a `CloseConnectionHandle` that ends the loop.
- `ResultNames.ResultString`: the numeric values of `eLeapRS` live in `LeapC.h`, which is not part of this model. Every value outside the 20 listed enumerators is one abstract `Unlisted(code)`.
- `FrameCache.SetFrame`: requires `nHands <= 2`. The source makes no such check, and a larger frame overflows the buffer in C. Memory from `malloc` is assumed to hold a hand count of at most 2, so that reading a never-written buffer stays within bounds.
- `DeviceCache.GetDeviceProperties`: returns the cached value. The aliasing of the returned pointer with the cache, and its use after a later `setDevice` frees the serial, are not modelled.
- `malloc`, `realloc` and `free` are modelled only as buffer capacity versus declared length.
- A device left open when the retry fails is visible only as a missing `LeapCloseDevice` in the call log.
- The `printf` diagnostics and `millisleep` have no modellable behaviour.
- `ApplyDeviceTransform` in `LeapSDK/samples/DeviceTransformSample.c:25-39` is floating-point arithmetic and is left out. As written, it multiplies by `vector->v[y]` where a matrix product would use `v[x]`.
- The console drivers (the rest of `DeviceTransformSample.c`, and `main.c`) are left out.
- `ExampleConnection.h` holds declarations only. Its `struct Callbacks` fixes the ten `Slot` values.
- Event payloads that the layer only passes through (image, IMU, tracking mode, hand and device fields) are kept as small records, not full LeapC structures.

=== FILE: DeviceCache.dfy ===
/**
 The last-device cache (`setDevice`, `GetDeviceProperties`) and the
 two-phase device-info fetch `handleDeviceEvent` drives against the transport.
 */
module DeviceCache {
  import opened LeapTypes

  /** `lastDevice` (the cached descriptor) and `lastDeviceHandle`. */
  datatype DeviceStore = DeviceStore(lastDevice: Option<DeviceInfo>, lastHandle: Device)

  const EmptyStore: DeviceStore := DeviceStore(None, NullDevice)

  /** The cached serial buffer is allocated to exactly the declared serial length. */
  predicate Valid(s: DeviceStore)
  {
    s.lastDevice.Some? ==> |s.lastDevice.value.serial| == s.lastDevice.value.serialLength
  }

  /**
   `cached` is a copy of `props`: every fixed field is the same, and the
   serial is a buffer of exactly `serialLength` bytes equal to the first
   `serialLength` bytes of the source buffer.
   */
  predicate CopyOf(cached: DeviceInfo, props: DeviceInfo)
  {
    && props.serialLength <= |props.serial|
    && cached.(serial := props.serial) == props
    && cached.serial == props.serial[..props.serialLength]
  }

  /**
   `setDevice`: remembers the device handle and replaces the cached
   descriptor by a copy of `props` with a serial buffer of its own.
   */
  function SetDevice(s: DeviceStore, device: Device, props: DeviceInfo): (r: DeviceStore)
    requires props.serialLength <= |props.serial|
    ensures Valid(r)
    ensures r.lastHandle == device
    ensures r.lastDevice.Some? && CopyOf(r.lastDevice.value, props)
  {
    DeviceStore(Some(props.(serial := props.serial[..props.serialLength])), device)
  }

  /** `GetDeviceProperties`: the cached descriptor, or `None` (null) if none was ever set. */
  function GetDeviceProperties(s: DeviceStore): (r: Option<DeviceInfo>)
    ensures r.None? <==> s.lastDevice.None?
    ensures Valid(s) && r.Some? ==> |r.value.serial| == r.value.serialLength
  {
    s.lastDevice
  }

  /** Before any device is set there is nothing to read; afterwards the read is a copy of the last one set. */
  lemma SetThenGetDevice(s: DeviceStore, device: Device, props: DeviceInfo)
    requires props.serialLength <= |props.serial|
    ensures GetDeviceProperties(EmptyStore).None?
    ensures GetDeviceProperties(SetDevice(s, device, props)).Some?
    ensures CopyOf(GetDeviceProperties(SetDevice(s, device, props)).value, props)
    ensures |GetDeviceProperties(SetDevice(s, device, props)).value.serial| == props.serialLength
  {
  }

  /** A second `setDevice` replaces everything the first one cached. */
  lemma SetDeviceOverwrites(s: DeviceStore, d1: Device, p1: DeviceInfo, d2: Device, p2: DeviceInfo)
    requires p1.serialLength <= |p1.serial| && p2.serialLength <= |p2.serial|
    ensures SetDevice(SetDevice(s, d1, p1), d2, p2) == SetDevice(s, d2, p2)
  {
  }

  /** The serial buffer size of the first `LeapGetDeviceInfo` call. */
  const ProbeSerialLength: nat := 1

  /** What `LeapGetDeviceInfo` returned and the `LEAP_DEVICE_INFO` it left behind. */
  datatype InfoReply = InfoReply(result: ResultCode, info: DeviceInfo)

  /**
   The transport, given a serial buffer of `capacity` bytes, hands back that
   buffer and, unless it reports `InsufficientBuffer` (in which case
   `serialLength` is the length it needs), declares a length that fits.
   */
  predicate Answers(reply: InfoReply, capacity: nat)
  {
    && |reply.info.serial| == capacity
    && (reply.result != InsufficientBuffer ==> reply.info.serialLength <= capacity)
  }

  /** The transport calls a fetch made and the descriptor it settled on (`None` when it gave up). */
  datatype Fetched = Fetched(calls: seq<Call>, info: Option<DeviceInfo>)

  /**
   The probe-then-resize fetch: a first call with a 1-byte serial buffer;
   on `InsufficientBuffer`, one retry with a buffer of the reported length,
   whose failure abandons the fetch. Any other outcome of the first call is
   kept, failure or not.
   */
  function FetchDeviceInfo(device: Device, probe: InfoReply, retry: InfoReply): (r: Fetched)
    requires Answers(probe, ProbeSerialLength)
    requires probe.result == InsufficientBuffer ==> Answers(retry, probe.info.serialLength)
    ensures 1 <= |r.calls| <= 2
    ensures r.calls[0] == LeapGetDeviceInfo(device, ProbeSerialLength)
    ensures |r.calls| == 2 <==> probe.result == InsufficientBuffer
    ensures |r.calls| == 2 ==> r.calls[1] == LeapGetDeviceInfo(device, probe.info.serialLength)
    ensures r.info.None? <==> probe.result == InsufficientBuffer && retry.result != Success
    ensures r.info.Some? ==> r.info.value.serialLength <= |r.info.value.serial|
    ensures r.info.Some? ==> r.info == Some(if |r.calls| == 2 then retry.info else probe.info)
  {
    var first := [LeapGetDeviceInfo(device, ProbeSerialLength)];
    if probe.result == InsufficientBuffer then
      var both := first + [LeapGetDeviceInfo(device, probe.info.serialLength)];
      if retry.result == Success then Fetched(both, Some(retry.info)) else Fetched(both, None)
    else
      Fetched(first, Some(probe.info))
  }

  /** A serial longer than the probe buffer is fetched whole: the retry's buffer holds exactly the reported length. */
  lemma TwoPhaseFetchesWholeSerial(device: Device, probe: InfoReply, retry: InfoReply)
    requires Answers(probe, ProbeSerialLength)
    requires probe.result == InsufficientBuffer && Answers(retry, probe.info.serialLength)
    requires retry.result == Success && retry.info.serialLength == probe.info.serialLength
    ensures FetchDeviceInfo(device, probe, retry).info.Some?
    ensures CopyOf(SetDevice(EmptyStore, device, FetchDeviceInfo(device, probe, retry).info.value).lastDevice.value, retry.info)
    ensures SetDevice(EmptyStore, device, FetchDeviceInfo(device, probe, retry).info.value).lastDevice.value.serial == retry.info.serial
  {
  }
}

=== FILE: DeviceTransform.dfy ===
/**
 `GetDeviceTransform`: the argument and availability checks around the
 transport's device-transform query for the last device found.
 */
module DeviceTransform {
  import opened LeapTypes
  import opened ServiceState
  import Dispatch

  /** Floats in a 4x4 transform. */
  const MatrixSize: nat := 16

  /**
   What `LeapGetDeviceTransform` returned and what the caller's 16-float
   buffer holds after it: the transform on success, whatever the transport
   left there otherwise.
   */
  datatype TransformReply = TransformReply(result: ResultCode, matrix: seq<Float32>)

  /** Which way the query ended; only `Returned` makes `GetDeviceTransform` return true. */
  datatype TransformStatus = Returned | NullBuffer | Unavailable | RequestFailed(reason: ResultCode)

  /** The outcome, the caller's buffer afterwards (`None` is null) and the transport calls made. */
  datatype TransformQuery = TransformQuery(status: TransformStatus, buffer: Option<seq<Float32>>, calls: seq<Call>)
  {
    /** The C function's boolean result. */
    predicate Succeeded()
    {
      status.Returned?
    }
  }

  /**
   Queries the transform of `device` into `buffer`; `available` is what
   `LeapDeviceTransformAvailable` answers and `reply` what
   `LeapGetDeviceTransform` answers if it is asked.
   */
  function GetDeviceTransform(device: Device, buffer: Option<seq<Float32>>, available: bool, reply: TransformReply): (q: TransformQuery)
    requires buffer.Some? ==> |buffer.value| == MatrixSize
    requires buffer.Some? && available ==> |reply.matrix| == MatrixSize
    ensures q.Succeeded() <==> buffer.Some? && available && reply.result == Success
    ensures buffer.None? ==> q.status == NullBuffer && q.calls == [] && q.buffer.None?
    ensures buffer.Some? && !available ==> q.status == Unavailable && q.calls == [LeapDeviceTransformAvailable(device)]
    ensures buffer.Some? && available && reply.result != Success ==> q.status == RequestFailed(reply.result)
    ensures LeapGetDeviceTransform(device) in q.calls <==> buffer.Some? && available
    ensures q.status.NullBuffer? || q.status.Unavailable? ==> q.buffer == buffer
    ensures LeapGetDeviceTransform(device) in q.calls ==> q.buffer == Some(reply.matrix)
    ensures q.buffer.Some? ==> |q.buffer.value| == MatrixSize
  {
    if buffer.None? then TransformQuery(NullBuffer, None, [])
    else if !available then TransformQuery(Unavailable, buffer, [LeapDeviceTransformAvailable(device)])
    else
      var calls := [LeapDeviceTransformAvailable(device), LeapGetDeviceTransform(device)];
      if reply.result == Success then TransformQuery(Returned, Some(reply.matrix), calls)
      else TransformQuery(RequestFailed(reply.result), Some(reply.matrix), calls)
  }

  /** The layer's state after a `GetDeviceTransform` call, with the query's outcome. */
  datatype Queried = Queried(state: State, query: TransformQuery)

  /**
   `GetDeviceTransform` as the layer runs it: under the lock, on the cached
   `lastDeviceHandle`, with its transport calls added to the layer's log.
   */
  function QueryTransform(st: State, buffer: Option<seq<Float32>>, available: bool, reply: TransformReply): (r: Queried)
    requires buffer.Some? ==> |buffer.value| == MatrixSize
    requires buffer.Some? && available ==> |reply.matrix| == MatrixSize
    ensures r.state == st.(calls := r.state.calls)
    ensures r.query.Succeeded() <==> buffer.Some? && available && reply.result == Success
    ensures r.query.buffer == (if buffer.Some? && available then Some(reply.matrix) else buffer)
    ensures CallsAppended(st, r.state,
              if buffer.None? then []
              else [LeapDeviceTransformAvailable(st.devices.lastHandle)]
                   + (if available then [LeapGetDeviceTransform(st.devices.lastHandle)] else []))
  {
    var q := GetDeviceTransform(st.devices.lastHandle, buffer, available, reply);
    Queried(st.(calls := st.calls + q.calls), q)
  }

  /** Before any device event has been handled, the transform is asked of the null device handle. */
  lemma TransformBeforeAnyDevice(callbacks: set<Slot>, buffer: seq<Float32>, available: bool, reply: TransformReply)
    requires |buffer| == MatrixSize
    requires available ==> |reply.matrix| == MatrixSize
    ensures QueryTransform(Initial(callbacks), Some(buffer), available, reply).state.calls[0] == LeapDeviceTransformAvailable(NullDevice)
  {
  }

  /**
   After a device event caches a device, the transform is asked of that
   device's handle, which the event had already closed.
   */
  lemma TransformQueriesClosedDevice(st: State, ref: DeviceRef, a: Dispatch.DeviceAnswers,
                                     buffer: seq<Float32>, available: bool, reply: TransformReply)
    requires Dispatch.Honest(a)
    requires Dispatch.FoundInfo(a).Some?
    requires |buffer| == MatrixSize
    requires available ==> |reply.matrix| == MatrixSize
    ensures var found := Dispatch.HandleDeviceEvent(st, ref, a);
            var after := QueryTransform(found, Some(buffer), available, reply).state;
            && after.calls[|found.calls|] == LeapDeviceTransformAvailable(a.open.handle)
            && after.calls[|found.calls| - 1] == LeapCloseDevice(a.open.handle)
  {
  }
}

=== FILE: Dispatch.dfy ===
/**
 The polling side: the `handle*Event` handlers, the `switch` of
 `serviceMessageLoop` and the loop itself. Each handler runs as one atomic
 step; a callback is recorded in `fired` when, and only when, its slot is
 registered.
 */
module Dispatch {
  import opened LeapTypes
  import opened ServiceState
  import FrameCache
  import DeviceCache

  /** The poll timeout, in milliseconds. */
  const PollTimeout: nat := 1000

  /** What `LeapOpenDevice` returned and the handle it opened. */
  datatype OpenReply = OpenReply(result: ResultCode, handle: Device)

  /** The transport's answers to the calls a device event makes, if they are made. */
  datatype DeviceAnswers = DeviceAnswers(open: OpenReply, probe: DeviceCache.InfoReply, retry: DeviceCache.InfoReply)

  /** The device-info answers respect the buffers they are given. */
  predicate Honest(a: DeviceAnswers)
  {
    && DeviceCache.Answers(a.probe, DeviceCache.ProbeSerialLength)
    && (a.probe.result == InsufficientBuffer ==> DeviceCache.Answers(a.retry, a.probe.info.serialLength))
  }

  /** The message kinds whose handler the code has, and the slot each one may fire. */
  function HandlerSlot(m: Message): Option<Slot>
  {
    match m
    case ConnectionMsg => Some(OnConnection)
    case ConnectionLostMsg => Some(OnConnectionLost)
    case DeviceMsg(_) => Some(OnDeviceFound)
    case DeviceLostMsg(_) => Some(OnDeviceLost)
    case DeviceFailureMsg(_, _) => Some(OnDeviceFailure)
    case TrackingMsg(_) => Some(OnFrame)
    case PolicyMsg(_) => Some(OnPolicy)
    case ImageMsg(_) => Some(OnImage)
    case TrackingModeMsg(_) => Some(OnTrackingMode)
    case ImuMsg(_) => Some(OnImu)
    case _ => None
  }

  /** Calls the callback behind `inv`'s slot if that slot is registered. */
  function Fire(st: State, inv: Invocation): (r: State)
    ensures r == st.(fired := r.fired)
    ensures inv.SlotOf() in st.callbacks ==> r.fired == st.fired + [inv]
    ensures inv.SlotOf() !in st.callbacks ==> r.fired == st.fired
  {
    if inv.SlotOf() in st.callbacks then st.(fired := st.fired + [inv]) else st
  }

  /** The descriptor a device event caches, if the event gets that far. */
  function FoundInfo(a: DeviceAnswers): Option<DeviceInfo>
    requires Honest(a)
  {
    if a.open.result != Success then None
    else DeviceCache.FetchDeviceInfo(a.open.handle, a.probe, a.retry).info
  }

  /**
   The end of `handleDeviceEvent` once a descriptor is in hand: `setDevice`,
   `on_device_found` if set, then `LeapCloseDevice`.
   */
  function CacheAndClose(st: State, device: Device, info: DeviceInfo): (r: State)
    requires info.serialLength <= |info.serial|
    ensures r == st.(devices := r.devices, fired := r.fired, calls := r.calls)
    ensures r.calls == st.calls + [LeapCloseDevice(device)]
    ensures r.devices.lastHandle == device
    ensures r.devices.lastDevice.Some? && DeviceCache.CopyOf(r.devices.lastDevice.value, info)
    ensures DeviceCache.Valid(r.devices)
    ensures r.fired == st.fired + (if OnDeviceFound in st.callbacks then [DeviceFoundCalled(info)] else [])
  {
    var found := Fire(st.(devices := DeviceCache.SetDevice(st.devices, device, info)), DeviceFoundCalled(info));
    found.(calls := found.calls + [LeapCloseDevice(device)])
  }

  /**
   `handleDeviceEvent`: opens the device, fetches its descriptor in two
   phases, caches it, fires `on_device_found` and closes the device. A
   failed open returns at once; a failed retry returns without
   `LeapCloseDevice`, so the opened device stays open.
   */
  function HandleDeviceEvent(st: State, ref: DeviceRef, a: DeviceAnswers): (r: State)
    requires Honest(a)
    ensures r == st.(devices := r.devices, fired := r.fired, calls := r.calls)
    ensures DeviceCache.Valid(st.devices) ==> DeviceCache.Valid(r.devices)
    ensures a.open.result != Success ==> r == st.(calls := st.calls + [LeapOpenDevice(ref)])
    ensures a.open.result == Success ==>
              var f := DeviceCache.FetchDeviceInfo(a.open.handle, a.probe, a.retry);
              r.calls == st.calls + [LeapOpenDevice(ref)] + f.calls + (if f.info.Some? then [LeapCloseDevice(a.open.handle)] else [])
    ensures FoundInfo(a).None? ==> r.devices == st.devices && r.fired == st.fired
    ensures FoundInfo(a).Some? ==>
              && r.devices.lastHandle == a.open.handle
              && r.devices.lastDevice.Some?
              && DeviceCache.CopyOf(r.devices.lastDevice.value, FoundInfo(a).value)
              && r.fired == st.fired + (if OnDeviceFound in st.callbacks then [DeviceFoundCalled(FoundInfo(a).value)] else [])
  {
    var opening := st.(calls := st.calls + [LeapOpenDevice(ref)]);
    if a.open.result != Success then opening
    else
      var fetch := DeviceCache.FetchDeviceInfo(a.open.handle, a.probe, a.retry);
      var fetched := opening.(calls := opening.calls + fetch.calls);
      match fetch.info
      case None => fetched
      case Some(info) =>
        CacheAndClose(fetched, a.open.handle, info)
  }

  /** A device event's log opens with `LeapOpenDevice` and, when a descriptor is cached, ends with `LeapCloseDevice`. */
  lemma DeviceEventBracketed(st: State, ref: DeviceRef, a: DeviceAnswers)
    requires Honest(a)
    ensures var r := HandleDeviceEvent(st, ref, a);
            && |r.calls| > |st.calls| && r.calls[..|st.calls| + 1] == st.calls + [LeapOpenDevice(ref)]
            && (FoundInfo(a).Some? ==> r.calls[|r.calls| - 1] == LeapCloseDevice(a.open.handle))
  {
    var r := HandleDeviceEvent(st, ref, a);
    if a.open.result == Success {
      var f := DeviceCache.FetchDeviceInfo(a.open.handle, a.probe, a.retry);
      var tail := f.calls + (if f.info.Some? then [LeapCloseDevice(a.open.handle)] else []);
      assert r.calls == st.calls + [LeapOpenDevice(ref)] + tail;
      assert r.calls[..|st.calls| + 1] == st.calls + [LeapOpenDevice(ref)];
    }
  }

  /** The first device-info call reports a failure other than `InsufficientBuffer`, yet the descriptor is still cached. */
  lemma ProbeFailureStillCached(st: State, ref: DeviceRef, a: DeviceAnswers)
    requires Honest(a)
    requires a.open.result == Success
    requires a.probe.result != Success && a.probe.result != InsufficientBuffer
    ensures HandleDeviceEvent(st, ref, a).devices.lastHandle == a.open.handle
    ensures DeviceCache.CopyOf(HandleDeviceEvent(st, ref, a).devices.lastDevice.value, a.probe.info)
    ensures OnDeviceFound in st.callbacks ==>
              HandleDeviceEvent(st, ref, a).fired == st.fired + [DeviceFoundCalled(a.probe.info)]
  {
  }

  /** A failed retry leaves the cache and the callbacks alone, after exactly two device-info calls. */
  lemma RetryFailureLeavesCache(st: State, ref: DeviceRef, a: DeviceAnswers)
    requires Honest(a)
    requires a.open.result == Success
    requires a.probe.result == InsufficientBuffer && a.retry.result != Success
    ensures HandleDeviceEvent(st, ref, a).devices == st.devices
    ensures HandleDeviceEvent(st, ref, a).fired == st.fired
    ensures HandleDeviceEvent(st, ref, a).calls == st.calls +
              [LeapOpenDevice(ref),
               LeapGetDeviceInfo(a.open.handle, DeviceCache.ProbeSerialLength),
               LeapGetDeviceInfo(a.open.handle, a.probe.info.serialLength)]
  {
  }

  /** What a message must satisfy for its handler to be defined: a tracking event's hands fit the cache. */
  predicate Deliverable(m: Message, a: DeviceAnswers)
  {
    && (m.TrackingMsg? ==> WellFormedEvent(m.frame) && m.frame.nHands <= FrameCache.HandCapacity)
    && (m.DeviceMsg? ==> Honest(a))
  }

  /** `b`'s callback history is `a`'s with at most one more callback, and that one through `slot`. */
  predicate FiredAtMostOnce(a: State, b: State, slot: Option<Slot>)
  {
    && |a.fired| <= |b.fired| <= |a.fired| + 1
    && b.fired[..|a.fired|] == a.fired
    && (|b.fired| > |a.fired| ==> slot == Some(b.fired[|a.fired|].SlotOf()) && slot.value in a.callbacks)
  }

  /** The callback the handler of a message other than a device event calls, with its arguments, if its slot is set. */
  function Notification(m: Message): (inv: Option<Invocation>)
    ensures inv.Some? <==> HandlerSlot(m).Some? && !m.DeviceMsg?
    ensures inv.Some? ==> HandlerSlot(m) == Some(inv.value.SlotOf())
    ensures m.ConnectionMsg? ==> inv == Some(ConnectionCalled)
    ensures m.ConnectionLostMsg? ==> inv == Some(ConnectionLostCalled)
    ensures m.DeviceLostMsg? ==> inv == Some(DeviceLostCalled)
    ensures m.DeviceFailureMsg? ==> inv == Some(DeviceFailureCalled(m.status, m.hDevice))
    ensures m.TrackingMsg? ==> inv == Some(FrameCalled(m.frame))
    ensures m.PolicyMsg? ==> inv == Some(PolicyCalled(m.currentPolicy))
    ensures m.ImageMsg? ==> inv == Some(ImageCalled(m.image))
    ensures m.TrackingModeMsg? ==> inv == Some(TrackingModeCalled(m.mode))
    ensures m.ImuMsg? ==> inv == Some(ImuCalled(m.imu))
  {
    match m
    case ConnectionMsg => Some(ConnectionCalled)
    case ConnectionLostMsg => Some(ConnectionLostCalled)
    case DeviceLostMsg(_) => Some(DeviceLostCalled)
    case DeviceFailureMsg(status, failed) => Some(DeviceFailureCalled(status, failed))
    case TrackingMsg(frame) => Some(FrameCalled(frame))
    case PolicyMsg(policies) => Some(PolicyCalled(policies))
    case ImageMsg(image) => Some(ImageCalled(image))
    case TrackingModeMsg(mode) => Some(TrackingModeCalled(mode))
    case ImuMsg(imu) => Some(ImuCalled(imu))
    case _ => None
  }

  /**
   What the handler of a message other than a device event does before its
   callback: connection events set `IsConnected`, tracking events go
   through `setFrame`; the rest touch nothing.
   */
  function Update(st: State, m: Message, alloc: TrackingEvent): (r: State)
    requires Valid(st)
    requires FrameCache.CacheBuffer(alloc)
    requires m.TrackingMsg? ==> WellFormedEvent(m.frame) && m.frame.nHands <= FrameCache.HandCapacity
    ensures Valid(r)
    ensures r == st.(isConnected := r.isConnected, frames := r.frames)
    ensures m.ConnectionMsg? ==> r.isConnected
    ensures m.ConnectionLostMsg? ==> !r.isConnected
    ensures !m.ConnectionMsg? && !m.ConnectionLostMsg? ==> r.isConnected == st.isConnected
    ensures !m.TrackingMsg? ==> r.frames == st.frames
    ensures m.TrackingMsg? ==> r.frames.last.Some? && FrameCache.SameFrame(r.frames.last.value, m.frame)
    ensures m.TrackingMsg? ==> r.frames.reader == st.frames.reader
  {
    match m
    case ConnectionMsg => st.(isConnected := true)
    case ConnectionLostMsg => st.(isConnected := false)
    case TrackingMsg(frame) => st.(frames := FrameCache.SetFrame(st.frames, Some(frame), alloc))
    case _ => st
  }

  /**
   The `switch (msg.type)` of `serviceMessageLoop`: runs the handler for
   the message's kind; image-complete, image-request-error and unknown kinds
   are ignored. `a` answers the transport calls of a device event and
   `alloc` is the indeterminate contents of a buffer `setFrame` allocates.
   */
  function DispatchMessage(st: State, m: Message, a: DeviceAnswers, alloc: TrackingEvent): (r: State)
    requires Valid(st)
    requires FrameCache.CacheBuffer(alloc)
    requires Deliverable(m, a)
    ensures Valid(r)
    ensures r.running == st.running && r.connection == st.connection && r.callbacks == st.callbacks
    ensures FiredAtMostOnce(st, r, HandlerSlot(m))
    ensures !m.DeviceMsg? && HandlerSlot(m).Some? && HandlerSlot(m).value in st.callbacks ==> r.fired == st.fired + [Notification(m).value]
    ensures m.DeviceMsg? ==> r == HandleDeviceEvent(st, m.device, a)
    ensures HandlerSlot(m).None? ==> r == st
    ensures m.ConnectionMsg? ==> r.isConnected
    ensures m.ConnectionLostMsg? ==> !r.isConnected
    ensures !m.ConnectionMsg? && !m.ConnectionLostMsg? ==> r.isConnected == st.isConnected
    ensures !m.TrackingMsg? ==> r.frames == st.frames
    ensures m.TrackingMsg? ==> r.frames.last.Some? && FrameCache.SameFrame(r.frames.last.value, m.frame)
    ensures m.TrackingMsg? ==> r.frames.reader == st.frames.reader
    ensures !m.DeviceMsg? ==> r.devices == st.devices && r.calls == st.calls
  {
    if m.DeviceMsg? then
      var r := HandleDeviceEvent(st, m.device, a);
      assert r.fired[..|st.fired|] == st.fired;
      r
    else
      match Notification(m)
      case None => st
      case Some(inv) =>
        var r := Fire(Update(st, m, alloc), inv);
        assert r.fired[..|st.fired|] == st.fired;
        r
  }

  /** What `LeapPollConnection` returned and the message it filled in. */
  datatype PollReply = PollReply(result: ResultCode, msg: Message)

  /** Everything the environment supplies to one loop iteration. */
  datatype Tick = Tick(poll: PollReply, device: DeviceAnswers, alloc: TrackingEvent)

  predicate TickOk(t: Tick)
  {
    FrameCache.CacheBuffer(t.alloc) && (t.poll.result == Success ==> Deliverable(t.poll.msg, t.device))
  }

  /** One iteration of `serviceMessageLoop`: poll, then dispatch only if the poll succeeded. */
  function ServiceStep(st: State, t: Tick): (r: State)
    requires Valid(st)
    requires TickOk(t)
    ensures Valid(r)
    ensures r.running == st.running && r.connection == st.connection && r.callbacks == st.callbacks
    ensures |r.calls| > |st.calls| && r.calls[..|st.calls| + 1] == st.calls + [LeapPollConnection(st.connection, PollTimeout)]
    ensures t.poll.result != Success ==> r == st.(calls := st.calls + [LeapPollConnection(st.connection, PollTimeout)])
    ensures FiredAtMostOnce(st, r, if t.poll.result == Success then HandlerSlot(t.poll.msg) else None)
    ensures t.poll.result == Success ==>
              r == DispatchMessage(st.(calls := st.calls + [LeapPollConnection(st.connection, PollTimeout)]), t.poll.msg, t.device, t.alloc)
  {
    var polled := st.(calls := st.calls + [LeapPollConnection(st.connection, PollTimeout)]);
    if t.poll.result != Success then polled
    else
      var r := DispatchMessage(polled, t.poll.msg, t.device, t.alloc);
      assert r.calls[..|polled.calls|] == polled.calls;
      r
  }

  /** The number of ticks whose poll succeeded. */
  function Delivered(ticks: seq<Tick>): (n: nat)
    ensures n <= |ticks|
  {
    if ticks == [] then 0
    else Delivered(ticks[..|ticks| - 1]) + (if ticks[|ticks| - 1].poll.result == Success then 1 else 0)
  }

  /** The state after the loop body has run once per tick, in order. */
  function Steps(st: State, ticks: seq<Tick>): (r: State)
    requires Valid(st)
    requires forall i :: 0 <= i < |ticks| ==> TickOk(ticks[i])
    ensures Valid(r)
    ensures r.running == st.running && r.connection == st.connection && r.callbacks == st.callbacks
    decreases |ticks|
  {
    if ticks == [] then st
    else
      assert forall i :: 0 <= i < |ticks| - 1 ==> ticks[..|ticks| - 1][i] == ticks[i];
      assert TickOk(ticks[|ticks| - 1]);
      ServiceStep(Steps(st, ticks[..|ticks| - 1]), ticks[|ticks| - 1])
  }

  /**
   The callback a tick's message leads to, given the registered slots: the
   notification of a delivered message whose slot is set, or for a device
   event the `on_device_found` call with the descriptor that got cached.
   */
  function CallbackOf(callbacks: set<Slot>, t: Tick): seq<Invocation>
    requires TickOk(t)
  {
    if t.poll.result != Success then []
    else if t.poll.msg.DeviceMsg? then
      if FoundInfo(t.device).Some? && OnDeviceFound in callbacks then [DeviceFoundCalled(FoundInfo(t.device).value)] else []
    else
      var n := Notification(t.poll.msg);
      if n.Some? && n.value.SlotOf() in callbacks then [n.value] else []
  }

  /** The callbacks a sequence of ticks leads to, oldest first. */
  function CallbacksOf(callbacks: set<Slot>, ticks: seq<Tick>): seq<Invocation>
    requires forall i :: 0 <= i < |ticks| ==> TickOk(ticks[i])
    decreases |ticks|
  {
    if ticks == [] then []
    else
      assert forall i :: 0 <= i < |ticks| - 1 ==> ticks[..|ticks| - 1][i] == ticks[i];
      assert TickOk(ticks[|ticks| - 1]);
      CallbacksOf(callbacks, ticks[..|ticks| - 1]) + CallbackOf(callbacks, ticks[|ticks| - 1])
  }

  /** One loop iteration fires exactly the callback its tick leads to. */
  lemma StepFiresCallback(st: State, t: Tick)
    requires Valid(st)
    requires TickOk(t)
    ensures ServiceStep(st, t).fired == st.fired + CallbackOf(st.callbacks, t)
    ensures |CallbackOf(st.callbacks, t)| <= (if t.poll.result == Success then 1 else 0)
  {
    if t.poll.result == Success {
      var polled := st.(calls := st.calls + [LeapPollConnection(st.connection, PollTimeout)]);
      assert ServiceStep(st, t) == DispatchMessage(polled, t.poll.msg, t.device, t.alloc);
    }
  }

  /** A sequence of ticks leads to at most one callback per delivered message. */
  lemma {:induction false} CallbacksOfBounded(callbacks: set<Slot>, ticks: seq<Tick>)
    requires forall i :: 0 <= i < |ticks| ==> TickOk(ticks[i])
    ensures |CallbacksOf(callbacks, ticks)| <= Delivered(ticks)
    decreases |ticks|
  {
    if ticks != [] {
      var init := ticks[..|ticks| - 1];
      assert forall i :: 0 <= i < |init| ==> init[i] == ticks[i];
      CallbacksOfBounded(callbacks, init);
    }
  }

  /** Running a non-empty sequence of ticks is running all but the last, then the last. */
  lemma StepsSnoc(st: State, ticks: seq<Tick>)
    requires Valid(st)
    requires forall i :: 0 <= i < |ticks| ==> TickOk(ticks[i])
    requires ticks != []
    ensures var init := ticks[..|ticks| - 1]; forall i :: 0 <= i < |init| ==> TickOk(init[i])
    ensures Steps(st, ticks) == ServiceStep(Steps(st, ticks[..|ticks| - 1]), ticks[|ticks| - 1])
  {
  }

  /** Running the ticks fires exactly the callbacks their messages lead to, in order, at most one per delivered message. */
  lemma {:induction false} StepsFireCallbacks(st: State, ticks: seq<Tick>)
    requires Valid(st)
    requires forall i :: 0 <= i < |ticks| ==> TickOk(ticks[i])
    ensures Steps(st, ticks).fired == st.fired + CallbacksOf(st.callbacks, ticks)
    ensures |CallbacksOf(st.callbacks, ticks)| <= Delivered(ticks)
    decreases |ticks|
  {
    CallbacksOfBounded(st.callbacks, ticks);
    if ticks != [] {
      var init := ticks[..|ticks| - 1];
      var t := ticks[|ticks| - 1];
      StepsSnoc(st, ticks);
      StepsFireCallbacks(st, init);
      var before := Steps(st, init);
      StepFiresCallback(before, t);
      calc {
        Steps(st, ticks).fired;
        before.fired + CallbackOf(st.callbacks, t);
        st.fired + CallbacksOf(st.callbacks, init) + CallbackOf(st.callbacks, t);
        st.fired + CallbacksOf(st.callbacks, ticks);
      }
    }
  }

  /** The last delivered connection (`true`) or connection-lost (`false`) message, if any. */
  function LastConnectionNews(ticks: seq<Tick>): Option<bool>
  {
    if ticks == [] then None
    else
      var t := ticks[|ticks| - 1];
      if t.poll.result == Success && t.poll.msg.ConnectionMsg? then Some(true)
      else if t.poll.result == Success && t.poll.msg.ConnectionLostMsg? then Some(false)
      else LastConnectionNews(ticks[..|ticks| - 1])
  }

  /** After the ticks, `IsConnected` is what the last delivered connection or connection-lost message said. */
  lemma {:induction false} StepsTrackConnection(st: State, ticks: seq<Tick>)
    requires Valid(st)
    requires forall i :: 0 <= i < |ticks| ==> TickOk(ticks[i])
    ensures LastConnectionNews(ticks).Some? ==> Steps(st, ticks).isConnected == LastConnectionNews(ticks).value
    ensures LastConnectionNews(ticks).None? ==> Steps(st, ticks).isConnected == st.isConnected
    decreases |ticks|
  {
    if ticks != [] {
      StepsSnoc(st, ticks);
      StepsTrackConnection(st, ticks[..|ticks| - 1]);
    }
  }

  /** The frame of the last delivered tracking event, if any. */
  function LastFrame(ticks: seq<Tick>): Option<TrackingEvent>
  {
    if ticks == [] then None
    else
      var t := ticks[|ticks| - 1];
      if t.poll.result == Success && t.poll.msg.TrackingMsg? then Some(t.poll.msg.frame)
      else LastFrame(ticks[..|ticks| - 1])
  }

  /**
   After the ticks, `GetFrame` returns the frame of the last delivered
   tracking event; without one, it returns what it returned before.
   */
  lemma {:induction false} StepsCacheLastFrame(st: State, ticks: seq<Tick>, alloc: TrackingEvent)
    requires Valid(st)
    requires forall i :: 0 <= i < |ticks| ==> TickOk(ticks[i])
    requires FrameCache.CacheBuffer(alloc)
    ensures LastFrame(ticks).None? ==> Steps(st, ticks).frames.last == st.frames.last
    ensures LastFrame(ticks).Some? ==>
              var read := FrameCache.GetFrame(Steps(st, ticks).frames, alloc).frame;
              read.Some? && FrameCache.SameFrame(read.value, LastFrame(ticks).value)
    decreases |ticks|
  {
    if ticks != [] {
      var init := ticks[..|ticks| - 1];
      var t := ticks[|ticks| - 1];
      StepsSnoc(st, ticks);
      StepsCacheLastFrame(st, init, alloc);
      var after := Steps(st, ticks);
      if t.poll.result == Success && t.poll.msg.TrackingMsg? {
        var read := FrameCache.GetFrame(after.frames, alloc).frame.value;
        var cached := after.frames.last.value;
        assert read.hands[..read.nHands] == cached.hands[..cached.nHands] == t.poll.msg.frame.hands[..t.poll.msg.frame.nHands];
      } else if LastFrame(init).Some? {
        assert after.frames.last == Steps(st, init).frames.last;
        var read := FrameCache.GetFrame(after.frames, alloc).frame.value;
        assert read.hands[..read.nHands] == after.frames.last.value.hands[..read.nHands];
      }
    }
  }

  /** `b`'s histories extend `a`'s, with `b`'s new callbacks all through `a`'s registered slots. */
  predicate Extends(a: State, b: State)
  {
    && |a.calls| <= |b.calls| && b.calls[..|a.calls|] == a.calls
    && |a.fired| <= |b.fired| && b.fired[..|a.fired|] == a.fired
    && forall k :: |a.fired| <= k < |b.fired| ==> b.fired[k].SlotOf() in a.callbacks
  }

  /** Extending is transitive when the registered slots stay the same. */
  lemma ExtendsTransitive(a: State, b: State, c: State)
    requires Extends(a, b) && Extends(b, c) && b.callbacks == a.callbacks
    ensures Extends(a, c)
  {
    assert c.calls[..|a.calls|] == c.calls[..|b.calls|][..|a.calls|];
    assert c.fired[..|a.fired|] == c.fired[..|b.fired|][..|a.fired|];
    forall k | |a.fired| <= k < |c.fired|
      ensures c.fired[k].SlotOf() in a.callbacks
    {
      if k < |b.fired| {
        assert c.fired[k] == c.fired[..|b.fired|][k];
      }
    }
  }

  /** One iteration extends both histories, with at least its poll and at most one callback. */
  lemma StepExtends(st: State, t: Tick)
    requires Valid(st)
    requires TickOk(t)
    ensures Extends(st, ServiceStep(st, t))
    ensures |ServiceStep(st, t).calls| >= |st.calls| + 1
    ensures |ServiceStep(st, t).fired| <= |st.fired| + (if t.poll.result == Success then 1 else 0)
  {
    var r := ServiceStep(st, t);
    assert r.calls[..|st.calls|] == r.calls[..|st.calls| + 1][..|st.calls|];
  }

  /**
   Running the ticks only appends to both histories: one poll at least per
   tick, at most one callback per delivered message, and only through a
   registered slot.
   */
  lemma {:induction false} StepsKeepHistory(st: State, ticks: seq<Tick>)
    requires Valid(st)
    requires forall i :: 0 <= i < |ticks| ==> TickOk(ticks[i])
    ensures Extends(st, Steps(st, ticks))
    ensures |Steps(st, ticks).calls| >= |st.calls| + |ticks|
    ensures |Steps(st, ticks).fired| <= |st.fired| + Delivered(ticks)
    decreases |ticks|
  {
    if ticks == [] {
      assert st.calls[..|st.calls|] == st.calls;
      assert st.fired[..|st.fired|] == st.fired;
    } else {
      var init := ticks[..|ticks| - 1];
      var t := ticks[|ticks| - 1];
      StepsSnoc(st, ticks);
      StepsKeepHistory(st, init);
      var before := Steps(st, init);
      StepExtends(before, t);
      ExtendsTransitive(st, before, Steps(st, ticks));
    }
  }

  /**
   `serviceMessageLoop`, over the polls that happen before the running flag
   is seen cleared. The loop never runs when the layer is not running; while
   it runs, it is the loop body applied once per tick, so each iteration
   polls once and dispatches every message whose poll succeeded.
   */
  method ServiceMessageLoop(st: State, ticks: seq<Tick>) returns (r: State, delivered: nat)
    requires Valid(st)
    requires forall i :: 0 <= i < |ticks| ==> TickOk(ticks[i])
    ensures Valid(r)
    ensures !st.running ==> r == st && delivered == 0
    ensures st.running ==> r == Steps(st, ticks) && delivered == Delivered(ticks)
    ensures st.running ==> |r.calls| >= |st.calls| + |ticks|
    ensures r.running == st.running && r.connection == st.connection && r.callbacks == st.callbacks
    ensures |st.fired| <= |r.fired| <= |st.fired| + delivered
    ensures r.fired[..|st.fired|] == st.fired
    ensures r.calls[..|st.calls|] == st.calls
    ensures forall k :: |st.fired| <= k < |r.fired| ==> r.fired[k].SlotOf() in st.callbacks
  {
    r := st;
    delivered := 0;
    if !st.running {
      return;
    }
    var i := 0;
    while i < |ticks|
      invariant 0 <= i <= |ticks|
      invariant r == Steps(st, ticks[..i])
      invariant delivered == Delivered(ticks[..i])
    {
      assert ticks[..i + 1][..i] == ticks[..i];
      assert forall k :: 0 <= k < i + 1 ==> ticks[..i + 1][k] == ticks[k];
      r := ServiceStep(r, ticks[i]);
      if ticks[i].poll.result == Success {
        delivered := delivered + 1;
      }
      i := i + 1;
    }
    assert ticks[..|ticks|] == ticks;
    StepsKeepHistory(st, ticks);
  }
}

=== FILE: FrameCache.dfy ===
/**
 The last-frame cache: `deepCopyTrackingEvent`, `setFrame` and `GetFrame`.

 Both buffers the cache allocates (the cached frame and the frame `GetFrame`
 hands back) have room for exactly `HandCapacity` hands, while the copy
 writes `nHands` of them; a frame with more hands than that would be written
 past the end of the buffer, so the copy requires that the hands fit.
 Freshly allocated memory is indeterminate: its contents are a parameter.
 */
module FrameCache {
  import opened LeapTypes

  /** Hands the cache allocates room for (`malloc(2 * sizeof(LEAP_HAND))`). */
  const HandCapacity: nat := 2

  /** A buffer the cache allocated: exactly `HandCapacity` hand slots, and a hand count that fits them. */
  predicate CacheBuffer(f: TrackingEvent)
  {
    |f.hands| == HandCapacity && f.nHands <= HandCapacity
  }

  /** `a` and `b` agree in header, frame id, hand count, frame rate and the first `nHands` hands. */
  predicate SameFrame(a: TrackingEvent, b: TrackingEvent)
  {
    && a.info == b.info
    && a.trackingFrameId == b.trackingFrameId
    && a.nHands == b.nHands
    && a.framerate == b.framerate
    && a.nHands <= |a.hands|
    && b.nHands <= |b.hands|
    && a.hands[..a.nHands] == b.hands[..b.nHands]
  }

  /**
   `lastFrame` (the cached copy) and the static `currentFrame` that `GetFrame`
   copies into; `None` until the buffer is first allocated.
   */
  datatype FrameStore = FrameStore(last: Option<TrackingEvent>, reader: Option<TrackingEvent>)

  const EmptyStore: FrameStore := FrameStore(None, None)

  predicate Valid(s: FrameStore)
  {
    && (s.last.Some? ==> CacheBuffer(s.last.value))
    && (s.reader.Some? ==> CacheBuffer(s.reader.value))
  }

  /**
   Copies the header fields and the first `nHands` hands of `src` into the
   storage of `dst`; hand slots past `nHands` keep what `dst` held.
   */
  function DeepCopy(dst: TrackingEvent, src: TrackingEvent): (r: TrackingEvent)
    requires src.nHands <= |src.hands|
    requires src.nHands <= |dst.hands|
    ensures SameFrame(r, src)
    ensures |r.hands| == |dst.hands|
    ensures r.hands[src.nHands..] == dst.hands[src.nHands..]
  {
    TrackingEvent(src.info, src.trackingFrameId, src.nHands, src.framerate,
                  src.hands[..src.nHands] + dst.hands[src.nHands..])
  }

  /** A copy changes nothing exactly when the destination already agrees with the source. */
  lemma DeepCopyFixpoint(dst: TrackingEvent, src: TrackingEvent)
    requires src.nHands <= |src.hands|
    requires src.nHands <= |dst.hands|
    ensures DeepCopy(dst, src) == dst <==> SameFrame(dst, src)
  {
    var r := DeepCopy(dst, src);
    if SameFrame(dst, src) {
      assert r.hands == dst.hands[..src.nHands] + dst.hands[src.nHands..];
      assert dst.hands == dst.hands[..src.nHands] + dst.hands[src.nHands..];
    }
  }

  /** Copying the same source twice is the same as copying it once. */
  lemma DeepCopyIdempotent(dst: TrackingEvent, src: TrackingEvent)
    requires src.nHands <= |src.hands|
    requires src.nHands <= |dst.hands|
    ensures DeepCopy(DeepCopy(dst, src), src) == DeepCopy(dst, src)
  {
    DeepCopyFixpoint(DeepCopy(dst, src), src);
  }

  /**
   `setFrame`: allocates the cached buffer on first use (contents `alloc`),
   then copies `frame` into it unless `frame` is null.
   */
  function SetFrame(s: FrameStore, frame: Option<TrackingEvent>, alloc: TrackingEvent): (r: FrameStore)
    requires Valid(s)
    requires CacheBuffer(alloc)
    requires frame.Some? ==> WellFormedEvent(frame.value) && frame.value.nHands <= HandCapacity
    ensures Valid(r)
    ensures r.reader == s.reader
    ensures r.last.Some?
    ensures frame.Some? ==> SameFrame(r.last.value, frame.value)
    ensures frame.None? && s.last.Some? ==> r == s
    ensures frame.None? && s.last.None? ==> r.last == Some(alloc)
  {
    var buffer := if s.last.Some? then s.last.value else alloc;
    match frame
    case None => s.(last := Some(buffer))
    case Some(f) => s.(last := Some(DeepCopy(buffer, f)))
  }

  /** What `GetFrame` leaves behind and what it returns (`None` is the null pointer). */
  datatype FrameRead = FrameRead(store: FrameStore, frame: Option<TrackingEvent>)

  /**
   `GetFrame`: allocates the returned buffer on first use (contents `alloc`),
   then, if a frame was ever cached, copies it into that buffer and returns it.
   */
  function GetFrame(s: FrameStore, alloc: TrackingEvent): (r: FrameRead)
    requires Valid(s)
    requires CacheBuffer(alloc)
    ensures Valid(r.store)
    ensures r.store.last == s.last
    ensures r.frame.None? <==> s.last.None?
    ensures r.frame.Some? ==> SameFrame(r.frame.value, s.last.value) && CacheBuffer(r.frame.value)
    ensures r.frame.Some? ==> r.store.reader == r.frame
  {
    var buffer := if s.reader.Some? then s.reader.value else alloc;
    match s.last
    case None => FrameRead(s.(reader := Some(buffer)), None)
    case Some(cached) =>
      var copy := DeepCopy(buffer, cached);
      FrameRead(s.(reader := Some(copy)), Some(copy))
  }

  /** After `setFrame(f)`, `GetFrame` returns a frame that agrees with `f`. */
  lemma SetThenGet(s: FrameStore, f: TrackingEvent, alloc1: TrackingEvent, alloc2: TrackingEvent)
    requires Valid(s) && CacheBuffer(alloc1) && CacheBuffer(alloc2)
    requires WellFormedEvent(f) && f.nHands <= HandCapacity
    ensures GetFrame(SetFrame(s, Some(f), alloc1), alloc2).frame.Some?
    ensures SameFrame(GetFrame(SetFrame(s, Some(f), alloc1), alloc2).frame.value, f)
  {
    var g := GetFrame(SetFrame(s, Some(f), alloc1), alloc2).frame.value;
    var c := SetFrame(s, Some(f), alloc1).last.value;
    assert g.hands[..g.nHands] == c.hands[..c.nHands] == f.hands[..f.nHands];
  }

  /** Last writer wins: a second `setFrame` hides the first one from `GetFrame`. */
  lemma LastWriteWins(s: FrameStore, f1: TrackingEvent, f2: TrackingEvent, alloc1: TrackingEvent, alloc2: TrackingEvent, alloc3: TrackingEvent)
    requires Valid(s) && CacheBuffer(alloc1) && CacheBuffer(alloc2) && CacheBuffer(alloc3)
    requires WellFormedEvent(f1) && f1.nHands <= HandCapacity
    requires WellFormedEvent(f2) && f2.nHands <= HandCapacity
    ensures SameFrame(GetFrame(SetFrame(SetFrame(s, Some(f1), alloc1), Some(f2), alloc2), alloc3).frame.value, f2)
  {
    SetThenGet(SetFrame(s, Some(f1), alloc1), f2, alloc2, alloc3);
  }

  /** A call a consumer or the polling thread makes on the cache. */
  datatype FrameOp = Write(frame: Option<TrackingEvent>, alloc: TrackingEvent) | Read(alloc: TrackingEvent)

  predicate OpOk(op: FrameOp)
  {
    && CacheBuffer(op.alloc)
    && (op.Write? && op.frame.Some? ==> WellFormedEvent(op.frame.value) && op.frame.value.nHands <= HandCapacity)
  }

  /**
   The store after running `ops` in order. The cached frame is absent
   exactly when it was absent at the start and no `setFrame` ran, whatever
   frames were passed and whatever was read.
   */
  function Run(s: FrameStore, ops: seq<FrameOp>): (r: FrameStore)
    requires Valid(s)
    requires forall i :: 0 <= i < |ops| ==> OpOk(ops[i])
    ensures Valid(r)
    ensures r.last.None? <==> s.last.None? && forall i :: 0 <= i < |ops| ==> !ops[i].Write?
    decreases |ops|
  {
    if ops == [] then s
    else
      var before := Run(s, ops[..|ops| - 1]);
      var op := ops[|ops| - 1];
      assert OpOk(op);
      assert forall i :: 0 <= i < |ops| - 1 ==> ops[..|ops| - 1][i] == ops[i];
      match op
      case Write(frame, alloc) => SetFrame(before, frame, alloc)
      case Read(alloc) => GetFrame(before, alloc).store
  }

  /** From an empty cache, `GetFrame` returns null until `setFrame` has run at least once, even with a null frame. */
  lemma ReadNullUntilWritten(ops: seq<FrameOp>, alloc: TrackingEvent)
    requires forall i :: 0 <= i < |ops| ==> OpOk(ops[i])
    requires CacheBuffer(alloc)
    ensures GetFrame(Run(EmptyStore, ops), alloc).frame.None? <==> forall i :: 0 <= i < |ops| ==> !ops[i].Write?
  {
  }
}

=== FILE: LeapTypes.dfy ===
/**
 The values that cross the boundary between the connection layer and the
 LeapC transport: result codes, tracking frames, device descriptors,
 messages returned by a poll, callback slots and the log of transport calls.

 Pointers become `Option`s or null-able handles; C floats are kept as their
 32-bit patterns because the layer only ever copies them.
 */
module LeapTypes {

  datatype Option<+T> = None | Some(value: T)

  type byte = bv8

  /** An IEEE-754 single-precision value, kept as its bit pattern. */
  type Float32 = bv32

  /** The `eLeapRS` enumerators the layer names, plus every other value. */
  datatype ResultCode =
    | Success
    | UnknownError
    | InvalidArgument
    | InsufficientResources
    | InsufficientBuffer
    | Timeout
    | NotConnected
    | HandshakeIncomplete
    | BufferSizeOverflow
    | ProtocolError
    | InvalidClientID
    | UnexpectedClosed
    | UnknownImageFrameRequest
    | UnknownTrackingFrameID
    | RoutineIsNotSeer
    | TimestampTooEarly
    | ConcurrentPoll
    | NotAvailable
    | NotStreaming
    | CannotOpenDevice
      /** Any `eLeapRS` value that is none of the enumerators above. */
    | Unlisted(code: int)

  /** A transport session handle (`LEAP_CONNECTION`); null until created. */
  datatype Connection = NullConnection | Connection(id: nat)

  /** An opened device handle (`LEAP_DEVICE`); null until a device is opened. */
  datatype Device = NullDevice | Device(id: nat)

  /** The reference a device event carries (`LEAP_DEVICE_REF`). */
  datatype DeviceRef = DeviceRef(handle: nat, id: nat)

  datatype Vector = Vector(x: Float32, y: Float32, z: Float32)

  datatype HandType = Left | Right

  datatype Digit = Digit(fingerId: int, isExtended: bool)

  datatype Hand = Hand(id: bv32, handType: HandType, palmPosition: Vector, digits: seq<Digit>)

  datatype FrameHeader = FrameHeader(frameId: int, timestamp: int)

  /**
   A `LEAP_TRACKING_EVENT`. `hands` is the storage `pHands` points at: for an
   event produced by the transport it holds exactly `nHands` hands, for a
   buffer owned by the cache it holds as many slots as were allocated.
   */
  datatype TrackingEvent = TrackingEvent(
    info: FrameHeader,
    trackingFrameId: int,
    nHands: nat,
    framerate: Float32,
    hands: seq<Hand>)

  /** A tracking event as the transport delivers it: `pHands` points at `nHands` hands. */
  predicate WellFormedEvent(e: TrackingEvent)
  {
    |e.hands| == e.nHands
  }

  /**
   A `LEAP_DEVICE_INFO`. `serial` is the whole buffer `serial` points at, so
   `|serial|` is its allocated capacity and `serialLength` the declared length.
   */
  datatype DeviceInfo = DeviceInfo(
    size: nat,
    status: bv32,
    caps: bv32,
    pid: int,
    baseline: bv32,
    serialLength: nat,
    serial: seq<byte>,
    hFov: Float32,
    vFov: Float32,
    range: bv32)

  datatype ImageEvent = ImageEvent(info: FrameHeader)
  datatype ImuEvent = ImuEvent(timestamp: int)
  datatype TrackingModeEvent = TrackingModeEvent(currentTrackingMode: bv32)

  /** The `LEAP_CONNECTION_MESSAGE` a successful poll returns, by `eLeapEventType`. */
  datatype Message =
    | ConnectionMsg
    | ConnectionLostMsg
    | DeviceMsg(device: DeviceRef)
    | DeviceLostMsg(lost: DeviceRef)
    | DeviceFailureMsg(status: bv32, hDevice: Device)
    | TrackingMsg(frame: TrackingEvent)
    | ImageCompleteMsg
    | ImageRequestErrorMsg
    | PolicyMsg(currentPolicy: bv32)
    | ImageMsg(image: ImageEvent)
    | TrackingModeMsg(mode: TrackingModeEvent)
    | ImuMsg(imu: ImuEvent)
      /** Any other event type; the loop discards it. */
    | UnhandledMsg(eventType: int)

  /** The ten optional members of `struct Callbacks`. */
  datatype Slot =
    | OnConnection
    | OnConnectionLost
    | OnDeviceFound
    | OnDeviceLost
    | OnDeviceFailure
    | OnPolicy
    | OnFrame
    | OnImage
    | OnImu
    | OnTrackingMode

  /** One call of a consumer callback, with the arguments it received. */
  datatype Invocation =
    | ConnectionCalled
    | ConnectionLostCalled
    | DeviceFoundCalled(info: DeviceInfo)
    | DeviceLostCalled
    | DeviceFailureCalled(status: bv32, failedDevice: Device)
    | PolicyCalled(policies: bv32)
    | FrameCalled(frame: TrackingEvent)
    | ImageCalled(image: ImageEvent)
    | ImuCalled(imu: ImuEvent)
    | TrackingModeCalled(mode: TrackingModeEvent)
  {
    /** The callback slot this invocation went through. */
    function SlotOf(): Slot
    {
      match this
      case ConnectionCalled => OnConnection
      case ConnectionLostCalled => OnConnectionLost
      case DeviceFoundCalled(_) => OnDeviceFound
      case DeviceLostCalled => OnDeviceLost
      case DeviceFailureCalled(_, _) => OnDeviceFailure
      case PolicyCalled(_) => OnPolicy
      case FrameCalled(_) => OnFrame
      case ImageCalled(_) => OnImage
      case ImuCalled(_) => OnImu
      case TrackingModeCalled(_) => OnTrackingMode
    }
  }

  /** One call the layer makes into the LeapC transport, named after the LeapC function. */
  datatype Call =
    | LeapCreateConnection
    | LeapOpenConnection(conn: Connection)
    | LeapCloseConnection(conn: Connection)
    | LeapDestroyConnection(conn: Connection)
    | LeapPollConnection(conn: Connection, timeout: nat)
    | LeapOpenDevice(ref: DeviceRef)
    | LeapGetDeviceInfo(device: Device, serialCapacity: nat)
    | LeapCloseDevice(device: Device)
    | LeapDeviceTransformAvailable(device: Device)
    | LeapGetDeviceTransform(device: Device)
}

=== FILE: Lifecycle.dfy ===
/**
 `OpenConnection`, `CloseConnection`, `DestroyConnection` and
 `CloseConnectionHandle`. Starting and joining the polling thread and
 creating and destroying the mutex are not modelled: `running` stands for
 "the polling thread is live".
 */
module Lifecycle {
  import opened LeapTypes
  import opened ServiceState

  /** What `LeapCreateConnection` returned and the handle it produced. */
  datatype CreateReply = CreateReply(result: ResultCode, handle: nat)

  /** The state after `OpenConnection` and the handle it hands back (through `&connectionHandle`). */
  datatype Opened = Opened(state: State, handle: Connection)

  /**
   `OpenConnection`: nothing while running; otherwise creates a handle if
   there is none, opens it, and starts running only if the open succeeded.
   `create` is what `LeapCreateConnection` answers if it is asked, and
   `openResult` what `LeapOpenConnection` answers.
   */
  function OpenConnection(st: State, create: CreateReply, openResult: ResultCode): (r: Opened)
    ensures r.handle == r.state.connection
    ensures OnlyLifecycleChanged(st, r.state)
    ensures Valid(st) ==> Valid(r.state)
    ensures st.running ==> r == Opened(st, st.connection)
    ensures !st.running && st.connection != NullConnection ==>
              r.state.connection == st.connection && CallsAppended(st, r.state, [LeapOpenConnection(st.connection)])
    ensures !st.running && st.connection == NullConnection && create.result != Success ==>
              r.state == st.(calls := st.calls + [LeapCreateConnection])
    ensures !st.running && st.connection == NullConnection && create.result == Success ==>
              r.state.connection == Connection(create.handle)
              && CallsAppended(st, r.state, [LeapCreateConnection, LeapOpenConnection(Connection(create.handle))])
    ensures r.state.running <==> st.running || (openResult == Success && LeapOpenConnection(r.handle) in r.state.calls[|st.calls|..])
  {
    if st.running then Opened(st, st.connection)
    else
      var created :=
        if st.connection != NullConnection then st
        else if create.result == Success then
          st.(connection := Connection(create.handle), calls := st.calls + [LeapCreateConnection])
        else
          st.(calls := st.calls + [LeapCreateConnection]);
      if created.connection == NullConnection then Opened(created, created.connection)
      else
        var live := created.(calls := created.calls + [LeapOpenConnection(created.connection)],
                            running := openResult == Success);
        Opened(live, live.connection)
  }

  /** Opening an already open connection changes nothing and hands back the same handle. */
  lemma OpenIdempotent(st: State, c1: CreateReply, r1: ResultCode, c2: CreateReply, r2: ResultCode)
    requires OpenConnection(st, c1, r1).state.running
    ensures OpenConnection(OpenConnection(st, c1, r1).state, c2, r2) == OpenConnection(st, c1, r1)
  {
  }

  /** `CloseConnection`: nothing unless running; otherwise stops and closes the handle. */
  function CloseConnection(st: State): (r: State)
    ensures !r.running
    ensures OnlyLifecycleChanged(st, r) && r.connection == st.connection
    ensures Valid(st) ==> Valid(r)
    ensures !st.running ==> r == st
    ensures st.running ==> CallsAppended(st, r, [LeapCloseConnection(st.connection)])
  {
    if !st.running then st
    else st.(running := false, calls := st.calls + [LeapCloseConnection(st.connection)])
  }

  /** Closing twice is closing once. */
  lemma CloseIdempotent(st: State)
    ensures CloseConnection(CloseConnection(st)) == CloseConnection(st)
  {
  }

  /**
   `DestroyConnection`: closes, then destroys the handle. The handle is not
   cleared, so it stays non-null after it has been destroyed.
   */
  function DestroyConnection(st: State): (r: State)
    ensures !r.running
    ensures OnlyLifecycleChanged(st, r) && r.connection == st.connection
    ensures Valid(st) ==> Valid(r)
    ensures CallsAppended(st, r, (if st.running then [LeapCloseConnection(st.connection)] else []) + [LeapDestroyConnection(st.connection)])
  {
    var closed := CloseConnection(st);
    closed.(calls := closed.calls + [LeapDestroyConnection(st.connection)])
  }

  /**
   An `OpenConnection` after `DestroyConnection` creates no new handle: it
   opens the very handle that was just destroyed.
   */
  lemma OpenAfterDestroyReusesHandle(st: State, create: CreateReply, openResult: ResultCode)
    requires st.connection != NullConnection
    ensures var destroyed := DestroyConnection(st);
            var reopened := OpenConnection(destroyed, create, openResult);
            && destroyed.calls[|destroyed.calls| - 1] == LeapDestroyConnection(st.connection)
            && reopened.handle == st.connection
            && reopened.state.calls == destroyed.calls + [LeapOpenConnection(st.connection)]
            && LeapCreateConnection !in reopened.state.calls[|destroyed.calls|..]
  {
    var destroyed := DestroyConnection(st);
    var reopened := OpenConnection(destroyed, create, openResult);
    assert reopened.state.calls[|destroyed.calls|..] == [LeapOpenConnection(st.connection)];
  }

  /**
   `CloseConnectionHandle`: destroys the handle it is given and clears the
   running flag, without closing the connection or waiting for the thread.
   */
  function CloseConnectionHandle(st: State, target: Connection): (r: State)
    ensures !r.running
    ensures OnlyLifecycleChanged(st, r) && r.connection == st.connection
    ensures Valid(st) ==> Valid(r)
    ensures CallsAppended(st, r, [LeapDestroyConnection(target)])
  {
    st.(running := false, calls := st.calls + [LeapDestroyConnection(target)])
  }

  /**
   On the connection's own handle, `CloseConnectionHandle` is
   `DestroyConnection` exactly when the layer is not running; while running
   it skips the `LeapCloseConnection` that `DestroyConnection` makes first.
   */
  lemma CloseHandleIsDestroyWithoutClose(st: State)
    ensures CloseConnectionHandle(st, st.connection) == DestroyConnection(st) <==> !st.running
    ensures st.running ==> DestroyConnection(st).calls == st.calls + [LeapCloseConnection(st.connection)] + CloseConnectionHandle(st, st.connection).calls[|st.calls|..]
  {
    if st.running {
      assert |DestroyConnection(st).calls| != |CloseConnectionHandle(st, st.connection).calls|;
      assert CloseConnectionHandle(st, st.connection).calls[|st.calls|..] == [LeapDestroyConnection(st.connection)];
    }
  }
}

=== FILE: ResultNames.dfy ===
/**
 `ResultString`: the human-readable name of every `eLeapRS` result code.
 */
module ResultNames {
  import opened LeapTypes

  /** The name given to every value that is not one of the listed enumerators. */
  const UnknownResultName: string := "unknown result type."

  /** The prefix every listed enumerator's name starts with. */
  const EnumPrefix: string := "eLeapRS_"

  /** The name of a result code; defined for every value. */
  function ResultString(r: ResultCode): (name: string)
    ensures r.Unlisted? <==> name == UnknownResultName
    ensures !r.Unlisted? ==> |name| > |EnumPrefix| && name[..|EnumPrefix|] == EnumPrefix
  {
    match r
    case Success => "eLeapRS_Success"
    case UnknownError => "eLeapRS_UnknownError"
    case InvalidArgument => "eLeapRS_InvalidArgument"
    case InsufficientResources => "eLeapRS_InsufficientResources"
    case InsufficientBuffer => "eLeapRS_InsufficientBuffer"
    case Timeout => "eLeapRS_Timeout"
    case NotConnected => "eLeapRS_NotConnected"
    case HandshakeIncomplete => "eLeapRS_HandshakeIncomplete"
    case BufferSizeOverflow => "eLeapRS_BufferSizeOverflow"
    case ProtocolError => "eLeapRS_ProtocolError"
    case InvalidClientID => "eLeapRS_InvalidClientID"
    case UnexpectedClosed => "eLeapRS_UnexpectedClosed"
    case UnknownImageFrameRequest => "eLeapRS_UnknownImageFrameRequest"
    case UnknownTrackingFrameID => "eLeapRS_UnknownTrackingFrameID"
    case RoutineIsNotSeer => "eLeapRS_RoutineIsNotSeer"
    case TimestampTooEarly => "eLeapRS_TimestampTooEarly"
    case ConcurrentPoll => "eLeapRS_ConcurrentPoll"
    case NotAvailable => "eLeapRS_NotAvailable"
    case NotStreaming => "eLeapRS_NotStreaming"
    case CannotOpenDevice => "eLeapRS_CannotOpenDevice"
    case Unlisted(_) => UnknownResultName
  }

  /** The listed enumerators, in the order the names are given. */
  const Listed: seq<ResultCode> := [
    Success, UnknownError, InvalidArgument, InsufficientResources, InsufficientBuffer,
    Timeout, NotConnected, HandshakeIncomplete, BufferSizeOverflow, ProtocolError,
    InvalidClientID, UnexpectedClosed, UnknownImageFrameRequest, UnknownTrackingFrameID,
    RoutineIsNotSeer, TimestampTooEarly, ConcurrentPoll, NotAvailable, NotStreaming,
    CannotOpenDevice]

  /** Reads a name back into the first enumerator of `codes` that carries it. */
  function ParseIn(s: string, codes: seq<ResultCode>): (r: Option<ResultCode>)
    requires forall i :: 0 <= i < |codes| ==> !codes[i].Unlisted?
    ensures r.Some? ==> r.value in codes && !r.value.Unlisted? && ResultString(r.value) == s
  {
    if codes == [] then None
    else if ResultString(codes[0]) == s then Some(codes[0])
    else ParseIn(s, codes[1..])
  }

  /** The enumerator a name stands for, if it is the name of a listed enumerator. */
  function ParseResultName(s: string): (r: Option<ResultCode>)
    ensures r.Some? ==> !r.value.Unlisted? && ResultString(r.value) == s
    ensures s == UnknownResultName ==> r.None?
  {
    ParseIn(s, Listed)
  }

  /** The position of a listed enumerator in `Listed`. */
  function IndexOf(c: ResultCode): (k: nat)
    requires !c.Unlisted?
    ensures k < |Listed| && Listed[k] == c
  {
    match c
    case Success => 0
    case UnknownError => 1
    case InvalidArgument => 2
    case InsufficientResources => 3
    case InsufficientBuffer => 4
    case Timeout => 5
    case NotConnected => 6
    case HandshakeIncomplete => 7
    case BufferSizeOverflow => 8
    case ProtocolError => 9
    case InvalidClientID => 10
    case UnexpectedClosed => 11
    case UnknownImageFrameRequest => 12
    case UnknownTrackingFrameID => 13
    case RoutineIsNotSeer => 14
    case TimestampTooEarly => 15
    case ConcurrentPoll => 16
    case NotAvailable => 17
    case NotStreaming => 18
    case CannotOpenDevice => 19
  }

  /** A name carried by some code in `codes` is found there. */
  lemma {:induction false} ParseInFinds(c: ResultCode, codes: seq<ResultCode>)
    requires forall i :: 0 <= i < |codes| ==> !codes[i].Unlisted?
    requires c in codes
    ensures ParseIn(ResultString(c), codes).Some?
  {
    if codes[0] != c {
      assert c in codes[1..];
      ParseInFinds(c, codes[1..]);
    }
  }

  /** Every listed enumerator's name reads back to that enumerator. */
  lemma ParseResultNameRoundTrip(c: ResultCode)
    requires !c.Unlisted?
    ensures ParseResultName(ResultString(c)) == Some(c)
  {
    assert Listed[IndexOf(c)] == c;
    ParseInFinds(c, Listed);
    NamesInjective(ParseResultName(ResultString(c)).value, c);
  }

  /** No two distinct enumerators share a name, and no enumerator is named like an unlisted value. */
  lemma NamesInjective(a: ResultCode, b: ResultCode)
    requires ResultString(a) == ResultString(b)
    ensures a.Unlisted? <==> b.Unlisted?
    ensures !a.Unlisted? ==> a == b
  {
  }
}

=== FILE: Scenarios.dfy ===
/**
 End-to-end runs of the layer from its initial state, each a composition
 of the step functions with concrete transport answers.
 */
module Scenarios {
  import opened LeapTypes
  import opened ServiceState
  import Lifecycle
  import Dispatch
  import FrameCache
  import DeviceCache

  const Palm: Vector := Vector(0, 0, 0)
  const LeftHand: Hand := Hand(7, Left, Palm, [])
  const RightHand: Hand := Hand(8, Right, Palm, [])
  const TwoHands: TrackingEvent := TrackingEvent(FrameHeader(100, 5), 42, 2, 0, [LeftHand, RightHand])
  const Garbage: TrackingEvent := TrackingEvent(FrameHeader(0, 0), 0, 0, 0, [RightHand, RightHand])

  /** The state after a successful `OpenConnection` from the start. */
  function AfterOpen(callbacks: set<Slot>): (st: State)
    ensures Valid(st) && st.running
  {
    Lifecycle.OpenConnection(Initial(callbacks), Lifecycle.CreateReply(Success, 1), Success).state
  }

  /** Nothing is cached before the first tracking event: `GetFrame` returns null. */
  lemma NoFrameBeforeFirstWrite(callbacks: set<Slot>)
    ensures FrameCache.GetFrame(AfterOpen(callbacks).frames, Garbage).frame.None?
    ensures DeviceCache.GetDeviceProperties(AfterOpen(callbacks).devices).None?
  {
  }

  /**
   A tracking event carrying two hands is delivered; `on_frame` receives it
   and `GetFrame` then reports two hands with the same ids.
   */
  lemma TrackingEventReachesGetFrame(callbacks: set<Slot>)
    requires OnFrame in callbacks
    ensures var st := AfterOpen(callbacks);
            var tick := Dispatch.Tick(Dispatch.PollReply(Success, TrackingMsg(TwoHands)), Dispatch.DeviceAnswers(Dispatch.OpenReply(Success, NullDevice), DeviceCache.InfoReply(Success, SerialInfo(0, [])), DeviceCache.InfoReply(Success, SerialInfo(0, []))), Garbage);
            var after := Dispatch.ServiceStep(st, tick);
            var read := FrameCache.GetFrame(after.frames, Garbage).frame;
            && after.fired == [FrameCalled(TwoHands)]
            && read.Some?
            && read.value.nHands == 2
            && read.value.hands[0].id == 7 && read.value.hands[1].id == 8
  {
    var st := AfterOpen(callbacks);
    var tick := Dispatch.Tick(Dispatch.PollReply(Success, TrackingMsg(TwoHands)), Dispatch.DeviceAnswers(Dispatch.OpenReply(Success, NullDevice), DeviceCache.InfoReply(Success, SerialInfo(0, [])), DeviceCache.InfoReply(Success, SerialInfo(0, []))), Garbage);
    var after := Dispatch.ServiceStep(st, tick);
    var read := FrameCache.GetFrame(after.frames, Garbage).frame.value;
    assert read.hands[..2] == TwoHands.hands[..2];
  }

  /** A device descriptor with the given declared serial length and serial buffer. */
  function SerialInfo(serialLength: nat, serial: seq<byte>): DeviceInfo
  {
    DeviceInfo(0, 0, 0, 0, 0, serialLength, serial, 0, 0, 0)
  }

  /** "ABC123" and its terminator. */
  const Serial: seq<byte> := [0x41, 0x42, 0x43, 0x31, 0x32, 0x33, 0x00]

  /**
   A device whose serial is 7 bytes long: the 1-byte probe reports
   `InsufficientBuffer` with required length 7, the retry with a 7-byte
   buffer succeeds, and the cached serial is exactly those 7 bytes.
   */
  lemma DeviceSerialFetchedInTwoPhases(callbacks: set<Slot>)
    ensures var st := AfterOpen(callbacks);
            var answers := Dispatch.DeviceAnswers(
              Dispatch.OpenReply(Success, Device(3)),
              DeviceCache.InfoReply(InsufficientBuffer, SerialInfo(7, [0x41])),
              DeviceCache.InfoReply(Success, SerialInfo(7, Serial)));
            var after := Dispatch.DispatchMessage(st, DeviceMsg(DeviceRef(9, 9)), answers, Garbage);
            && after.calls[|st.calls|..] ==
                 [LeapOpenDevice(DeviceRef(9, 9)), LeapGetDeviceInfo(Device(3), 1), LeapGetDeviceInfo(Device(3), 7), LeapCloseDevice(Device(3))]
            && DeviceCache.GetDeviceProperties(after.devices).Some?
            && DeviceCache.GetDeviceProperties(after.devices).value.serial == Serial
            && after.devices.lastHandle == Device(3)
  {
    var st := AfterOpen(callbacks);
    var answers := Dispatch.DeviceAnswers(
      Dispatch.OpenReply(Success, Device(3)),
      DeviceCache.InfoReply(InsufficientBuffer, SerialInfo(7, [0x41])),
      DeviceCache.InfoReply(Success, SerialInfo(7, Serial)));
    var fetch := DeviceCache.FetchDeviceInfo(Device(3), answers.probe, answers.retry);
    assert fetch.calls == [LeapGetDeviceInfo(Device(3), 1), LeapGetDeviceInfo(Device(3), 7)];
    assert fetch.info == Some(SerialInfo(7, Serial));
    var after := Dispatch.DispatchMessage(st, DeviceMsg(DeviceRef(9, 9)), answers, Garbage);
    assert after == Dispatch.HandleDeviceEvent(st, DeviceRef(9, 9), answers);
    assert after.calls == st.calls + [LeapOpenDevice(DeviceRef(9, 9)), LeapGetDeviceInfo(Device(3), 1), LeapGetDeviceInfo(Device(3), 7), LeapCloseDevice(Device(3))];
    assert after.calls[|st.calls|..] == [LeapOpenDevice(DeviceRef(9, 9)), LeapGetDeviceInfo(Device(3), 1), LeapGetDeviceInfo(Device(3), 7), LeapCloseDevice(Device(3))];
    assert Serial[..7] == Serial;
  }
}

=== FILE: ServiceState.dfy ===
/**
 The connection layer's shared state, gathered into one record: what the
 C code keeps in file-scope statics, plus the history of callbacks fired
 and of transport calls made.
 */
module ServiceState {
  import opened LeapTypes
  import FrameCache
  import DeviceCache

  datatype State = State(
    running: bool,                    // `_isRunning`
    isConnected: bool,                // `IsConnected`
    connection: Connection,           // `connectionHandle`
    frames: FrameCache.FrameStore,    // `lastFrame` and `GetFrame`'s `currentFrame`
    devices: DeviceCache.DeviceStore, // `lastDevice` and `lastDeviceHandle`
    callbacks: set<Slot>,             // the non-null members of `ConnectionCallbacks`
    fired: seq<Invocation>,           // every callback call so far, oldest first
    calls: seq<Call>)                 // every transport call so far, oldest first

  /** The state before any operation, with the given callbacks registered. */
  function Initial(callbacks: set<Slot>): State
  {
    State(false, false, NullConnection, FrameCache.EmptyStore, DeviceCache.EmptyStore, callbacks, [], [])
  }

  /** What holds in every reachable state: a running layer has a handle, and both caches are well formed. */
  predicate Valid(st: State)
  {
    && (st.running ==> st.connection != NullConnection)
    && FrameCache.Valid(st.frames)
    && DeviceCache.Valid(st.devices)
  }

  lemma InitialValid(callbacks: set<Slot>)
    ensures Valid(Initial(callbacks))
  {
  }

  /** `b` differs from `a` at most in the lifecycle fields and the transport log. */
  predicate OnlyLifecycleChanged(a: State, b: State)
  {
    b == a.(running := b.running, connection := b.connection, calls := b.calls)
  }

  /** `b`'s transport log is `a`'s with `extra` appended. */
  predicate CallsAppended(a: State, b: State, extra: seq<Call>)
  {
    b.calls == a.calls + extra
  }
}
